=== FILE: README.md ===
# Task store: a Dafny model of a small task CRUD service

The service keeps task records in one SQL table and offers five HTTP handlers over them:
list (with a search term and a sort), get, create, update and delete. A declarative
schema sits in front of the table. It checks incoming JSON bodies and turns rows back
into JSON. This project models that behaviour as a pure state machine. The table is a
`map<int, Task>` from primary key to row. Each handler is a function from the current
table and the request's parameters to an `Outcome`: a status code with a body, and the
table after the request.

Modules, one per part of the program:

- `Wrappers` (`wrappers.dfy`): `Option` for nullable columns and `Result` for loads that can fail.
- `Models` (`models.dfy`): the `Task` row and the `Store` table. Also the ascending-id scan and the id a new row receives (`models.py`).
- `Schemas` (`schemas.dfy`): the field rules, with a strict load (`ValidateStrict`), a partial load (`ValidatePartial`) and `Dump` (`schemas.py`).
- `Search` (`search.dfy`): the `q` filter. SQLite's `LIKE` as the handler uses it, the case-insensitive substring test it stands for, and the proof that the two agree on every term without `%` or `_`.
- `Ordering` (`ordering.dfy`): sort column, direction and an insertion sort with sortedness and permutation contracts.
- `App` (`app.dfy`): the five handlers (`app.py`).
- `Properties` (`properties.dfy`): lemmas that relate the handlers to each other and to the schema.

A request body is a `Payload`. It holds one `Field` per schema field: `Missing`, `Null` or
`Given(value)`. The handlers replace a JSON body that decodes to a falsy value (`null`,
`{}`, `[]`, `0`, `""`, `false`) by `{}`, which is `EmptyPayload` here. A failed load yields
the set of field names that failed. The response then carries that set as its `ErrorsBody`.

`id` and `created_at` are dump-only fields. Under marshmallow 3 such fields are not load
fields, so a body that sends them fails with an unknown-field error keyed by that name.
The model rejects them the same way. So they are never taken from input.

## Model

| member | source | states |
|---|---|---|
| `Models.AscendingIds` | models.py:8 | a scan of the table visits every primary key exactly once, in strictly increasing order |
| `Models.RowsHaveNoDuplicates` | models.py:8 | since each row is filed under its own primary key, a scan never yields the same row twice |
| `Models.NextId` | models.py:8 | the id given to an inserted row is not in use and exceeds every id in use; an empty table gives 1 |
| `Schemas.ValidateStrict` | schemas.py:3-9 | a strict load succeeds iff title is given with length 1..200, priority is absent or in 0..5 and not null, and neither `id` nor `created_at` is sent; on success description and due_date are the given string or null, and priority is the given value or 0; on failure the error set names exactly the failing fields and is never empty |
| `Schemas.ValidatePartial` | schemas.py:3-9 | a partial load applies no required check and no default: a missing field is absent from the patch, while a present field is still validated (null title or priority rejected, title length 1..200, priority 0..5, dump-only fields rejected); the patch holds exactly the supplied keys, with null loaded as null for description and due_date |
| `Schemas.Dump` | schemas.py:3-9 | the dump of a task has exactly the keys id, title, description, due_date, priority, created_at, and carries the task's own id and created_at under the dump-only keys |
| `Search.Like` | app.py:35 | SQLite's LIKE without an ESCAPE clause: a pattern without `%` matches only texts of its own length; `%` matches any run of characters, `_` any one character, other characters compare with ASCII case folded |
| `Search.PercentSelectsEveryTask` | app.py:36-39 | under the handler's filter as written (`MatchesAsWritten`: the title, or a non-null description, is LIKE `%q%`), the term "%" selects every task |
| `Search.PercentMatchesAll` | app.py:35 | a lone `%` in a LIKE pattern matches every text, the empty one included |
| `Search.LeadingPercent` | app.py:35 | a leading `%` in a LIKE pattern lets the rest match any suffix of the text |
| `Search.TrailingPercent` | app.py:35 | a wildcard-free term followed by `%` matches exactly the texts that start with the term, ignoring ASCII case |
| `Search.LikeMatchesSubstring` | app.py:34-39 | for a term without `%` or `_`, `LIKE '%q%'` holds iff the text contains the term, ignoring ASCII case |
| `Search.UnderscoreIsAWildcard` | app.py:35 | the unescaped pattern lets the term "a_c" select the text "abc", which does not contain "a_c" |
| `Search.MatchesAgree` | app.py:36-39 | for a wildcard-free term, the as-written title-or-description LIKE filter and the substring filter select the same tasks |
| `Ordering.Insert` | app.py:46-49 | inserting a row into a sorted list keeps it sorted and adds exactly that row |
| `Ordering.Sort` | app.py:46-49 | the sorted list is a permutation of its input, with every earlier row allowed before every later one by the chosen key and direction |
| `Ordering.PermutationKeepsNoDup` | app.py:51 | rearranging a list without repeated rows yields a list without repeated rows |
| `App.SortKeyOf` | app.py:30 | the list is ordered by created_at iff the `sort` parameter is exactly "created_at"; absent or any other value orders by priority |
| `App.DirectionOf` | app.py:31 | the order is ascending iff the `order` parameter is exactly "asc"; absent or any other value gives descending |
| `App.Filter` | app.py:34-39 | the filter keeps exactly the rows the term selects, never repeats one, and keeps every row when the term is absent or empty |
| `App.ListTasks` | app.py:26-52 | listing answers 200 and leaves the table alone; the list holds exactly the stored tasks the term selects, each once, ordered by the chosen key and direction |
| `App.GetTask` | app.py:54-57 | get answers 200 with the stored row when the id exists and 404 otherwise, and never changes the table |
| `App.CreateTask` | app.py:59-75 | create answers 400 with the failing fields iff the strict load fails, leaving the table unchanged; otherwise it answers 201 with a new row under an unused id, stamped with the given time, holding the loaded values (priority 0 if absent), and nothing else in the table changes |
| `App.ApplyPatch` | app.py:86-93 | applying a patch never changes a row's id or created_at |
| `App.UpdateTask` | app.py:77-96 | an unknown id answers 404 whatever the body; a body failing partial load answers 400 with its failing fields; both leave the table unchanged; otherwise only that row changes, only in the keys the body holds (null clears description or due_date), and its id and created_at stay |
| `App.DeleteTask` | app.py:98-103 | deleting an unknown id answers 404 and changes nothing; otherwise it answers 200 and removes exactly that id |
| `Properties.PartialRelaxesOnlyTheRequiredCheck` | schemas.py:5 | a partial load rejects a subset of what a strict load rejects; the only extra strict failure is a missing title |
| `Properties.EmptyBody` | app.py:61 | an empty body fails a strict load on title alone and loads under a partial load as a patch that changes nothing |
| `Properties.ResubmissionLoads` | schemas.py:4-9 | sending back a conforming task's loadable fields loads strictly into exactly those fields |
| `Properties.DumpIsInjective` | schemas.py:4-9 | the dump keeps every column: two tasks with the same dump are the same task |
| `Properties.CreatePreservesValidStore` | models.py:8-13 | create keeps the table invariant: rows under their own ids, every id 1 or more, title length 1..200, priority 0..5 |
| `Properties.UpdatePreservesValidStore` | app.py:86-93 | update keeps the table invariant |
| `Properties.DeletePreservesValidStore` | app.py:100-102 | delete keeps the table invariant |
| `Properties.CreateAddsOneRow` | app.py:67-74 | a valid create adds exactly one row and leaves every existing row as it was |
| `Properties.CreateThenGet` | app.py:56 | a get of the created task's id returns the task the create returned |
| `Properties.CreateDumpKeepsLoadedValues` | app.py:67-75 | the dump of a created task carries the body's title, description, due_date and priority, with null or 0 where the body left them out |
| `Properties.UpdateIdempotent` | app.py:86-95 | applying the same update twice gives the same response and table as applying it once |
| `Properties.ResubmitIsNoOp` | app.py:86-93 | updating a task with its own loadable fields answers 200 with the task and leaves the table unchanged |
| `Properties.DeleteThenNotFound` | app.py:100-103 | after a delete, get, a second delete and an update of that id with any body all answer 404 |
| `Properties.ListWithoutQueryHoldsEveryTask` | app.py:33-34 | with the term absent or empty the list holds every stored task, and as many entries as the table has rows |
| `Properties.ListWithQuery` | app.py:34-39 | with a non-empty term the list holds exactly the stored tasks whose title, or non-null description, contains the term ignoring ASCII case |
| `Properties.ListOrder` | app.py:41-49 | the list is non-decreasing in created_at for sort=created_at and order=asc, non-increasing for any other order; likewise in priority for any other sort |
| `Properties.ListAgreesWithLike` | app.py:35-39 | for a term without `%` or `_`, the list holds exactly the tasks the handler's LIKE test selects |
| `Properties.CreateThenList` | app.py:51 | a task just created appears in an unfiltered list, whatever the sort |

## Left out

- Flask wiring is not modelled: configuration, CORS, table creation at start-up and process start (app.py:8-20, app.py:107-109). These are framework plumbing. The 404 handler (app.py:22-24) renders every lookup miss as `{"error": "Not found"}`, which the model carries as `NotFoundBody`; only its use for unmatched routes is left out.
- Sessions, commits and transactions are not modelled. Each handler is one atomic step over the table map, and concurrent requests are out of scope.
- Real timestamps are not modelled. `created_at` is a caller-supplied natural number, and it is dumped as that number rather than as an ISO-8601 string.
- JSON decoding is not modelled. That covers a missing, empty or undecodable body (the handlers' own `request.get_json()` calls at app.py:61 and app.py:80 answer 400 or 415; for update this happens only after the 404 check at app.py:79, so an unknown id still answers 404, as in the model), non-object bodies, marshmallow's type coercion (such as "3" to 3) and type errors. Keys the schema does not declare, other than `id` and `created_at`, are also out. Payloads are typed fields, and errors are field names without message text.
- Tie order is not modelled. Among rows with equal sort keys the database may return any order, so the model states nothing about it.
- Models.NextId: follows SQLite's choice for an unset integer primary key (one past the largest id). The lemmas rely only on the id being unused and larger than every current id.
- `due_date`'s `String(50)` column length is not modelled, because neither the schema nor SQLite enforces it.
- Database back ends other than SQLite are not modelled (the connection string can point elsewhere). Case folding is ASCII only, as SQLite's LIKE does it.
- Route ids are any integer here. Flask's `int` converter never routes a negative id; the table invariant keeps every stored id at 1 or more, so such ids answer 404 in the model as well.
- Route ids at or above 2^63 are not modelled as the service runs them. Flask's `int` converter accepts them, but the SQLite driver cannot bind an integer that wide and raises, so the service answers 500; the model has unbounded ids and answers 404.
- App.ListTasks: filters with the literal substring test and not with the handler's `LIKE '%q%'`. `Search.MatchesAsWritten` models the LIKE test as written, and `Properties.ListAgreesWithLike` proves that both select the same tasks for any term without `%` or `_` (see Findings). The model also answers 200 for every term, however long: SQLite refuses a LIKE pattern over 50,000 bytes, so when the table has rows a `q` over 49,998 UTF-8 bytes makes the service's query raise and answer 500.

## Findings

| source | as written | input that shows it | evidently intended | confidence | as-written member | corrected member |
|---|---|---|---|---|---|---|
| app.py:35 | the search term is put into a LIKE pattern unescaped, so `%` and `_` in it act as wildcards | q = "a_c" lists a task titled "abc"; q = "%" lists every task | a literal, case-insensitive substring search on title or description | medium; not executed | `Search.UnderscoreIsAWildcard` | `Properties.ListWithQuery` |

=== FILE: app.dfy ===
/**
 The five HTTP handlers, each a pure function from the current table (and the
 request's parameters) to a response and the table after the request.
 */
module App {
  import opened Wrappers
  import opened Models
  import opened Schemas
  import opened Search
  import opened Ordering

  /** A response body. Every task in a body goes out on the wire as its `Dump`. */
  datatype Body =
    | TaskBody(task: Task)
    | TaskListBody(tasks: seq<Task>)
    | ErrorsBody(fields: set<FieldName>)
    | NotFoundBody
    | DeletedBody

  datatype Response = Response(status: int, body: Body)

  /** What handling one request produces: the response and the table afterwards. */
  datatype Outcome = Outcome(response: Response, store: Store)

  const NotFound := Response(404, NotFoundBody)

  /** The table invariant the handlers keep: rows filed under their own positive ids,
      and every row satisfying the schema's rules. */
  predicate ValidStore(store: Store) {
    && KeyedById(store)
    && (forall k :: k in store ==> k >= 1)
    && forall k :: k in store ==> Conforms(store[k])
  }

  /** The list endpoint's query string; `None` is a parameter that was not sent. */
  datatype ListQuery = ListQuery(q: Option<string>, sort: Option<string>, order: Option<string>)

  /** `sort` defaults to "priority"; anything but "created_at" sorts by priority. */
  function SortKeyOf(sort: Option<string>): (key: SortKey)
    ensures key == ByCreatedAt <==> sort == Some("created_at")
  {
    if sort.GetOr("priority") == "created_at" then ByCreatedAt else ByPriority
  }

  /** `order` defaults to "desc"; anything but "asc" sorts descending. */
  function DirectionOf(order: Option<string>): (dir: Direction)
    ensures dir == Ascending <==> order == Some("asc")
  {
    if order.GetOr("desc") == "asc" then Ascending else Descending
  }

  /** A `q` that is absent or empty filters nothing. */
  predicate Filtering(q: Option<string>) {
    q.Some? && q.value != ""
  }

  predicate Selected(t: Task, q: Option<string>) {
    !Filtering(q) || Matches(t, q.value)
  }

  /** The rows the `q` filter keeps, in their original order. */
  function Filter(rows: seq<Task>, q: Option<string>): (r: seq<Task>)
    ensures forall t :: t in r <==> t in rows && Selected(t, q)
    ensures NoDup(rows) ==> NoDup(r)
    ensures !Filtering(q) ==> r == rows
  {
    if rows == [] then []
    else
      var rest := Filter(rows[1..], q);
      assert NoDup(rows) ==> NoDup(rows[1..]) && rows[0] !in rows[1..] by {
        if NoDup(rows) {
          forall i, j | 0 <= i < j < |rows[1..]|
            ensures rows[1..][i] != rows[1..][j]
          {
            assert rows[1..][i] == rows[i + 1] && rows[1..][j] == rows[j + 1];
          }
          forall j | 0 <= j < |rows[1..]|
            ensures rows[1..][j] != rows[0]
          {
            assert rows[1..][j] == rows[j + 1];
          }
        }
      }
      assert rows == [rows[0]] + rows[1..];
      if Selected(rows[0], q) then [rows[0]] + rest else rest
  }

  /** GET /tasks: filter by `q`, then order by the chosen column and direction. */
  function ListTasks(store: Store, query: ListQuery): (out: Outcome)
    ensures out.store == store
    ensures out.response.status == 200 && out.response.body.TaskListBody?
    ensures forall t :: t in out.response.body.tasks <==> t in store.Values && Selected(t, query.q)
    ensures KeyedById(store) ==> NoDup(out.response.body.tasks)
    ensures Sorted(out.response.body.tasks, SortKeyOf(query.sort), DirectionOf(query.order))
  {
    var rows := Filter(Rows(store), query.q);
    var sorted := Sort(rows, SortKeyOf(query.sort), DirectionOf(query.order));
    assert forall t :: t in sorted <==> t in rows by {
      forall t
        ensures t in sorted <==> t in rows
      {
        assert t in sorted <==> t in multiset(sorted);
        assert t in rows <==> t in multiset(rows);
      }
    }
    assert KeyedById(store) ==> NoDup(sorted) by {
      if KeyedById(store) {
        RowsHaveNoDuplicates(store);
        PermutationKeepsNoDup(rows, sorted);
      }
    }
    Outcome(Response(200, TaskListBody(sorted)), store)
  }

  /** GET /tasks/<id>. */
  function GetTask(store: Store, id: int): (out: Outcome)
    ensures out.store == store
    ensures id in store ==> out.response == Response(200, TaskBody(store[id]))
    ensures id !in store ==> out.response == NotFound
  {
    if id in store then Outcome(Response(200, TaskBody(store[id])), store)
    else Outcome(NotFound, store)
  }

  /** POST /tasks: strict load, then insert a row under a fresh id stamped `now`. */
  function CreateTask(store: Store, body: Payload, now: nat): (out: Outcome)
    ensures out.response.status == 201 || out.response.status == 400
    ensures out.response.status == 400 <==> ValidateStrict(body).Failure?
    ensures out.response.status == 400 ==>
      && out.store == store
      && out.response.body == ErrorsBody(ValidateStrict(body).error)
    ensures out.response.status == 201 ==>
      && out.response.body.TaskBody?
      && var t := out.response.body.task;
      && t.id !in store
      && out.store == store[t.id := t]
      && t.createdAt == now
      && t.title == body.title.value
      && t.description == (if body.description.Given? then Some(body.description.value) else None)
      && t.dueDate == (if body.dueDate.Given? then Some(body.dueDate.value) else None)
      && t.priority == (if body.priority.Given? then body.priority.value else DefaultPriority)
  {
    match ValidateStrict(body)
    case Failure(errors) => Outcome(Response(400, ErrorsBody(errors)), store)
    case Success(d) =>
      var t := Task(NextId(store), d.title, d.description, d.dueDate, d.priority, now);
      Outcome(Response(201, TaskBody(t)), store[t.id := t])
  }

  /** Assigns the fields a partial load supplied, and only those. */
  function ApplyPatch(t: Task, p: Patch): (u: Task)
    ensures u.id == t.id && u.createdAt == t.createdAt
  {
    t.(
      title := p.title.GetOr(t.title),
      description := p.description.GetOr(t.description),
      dueDate := p.dueDate.GetOr(t.dueDate),
      priority := p.priority.GetOr(t.priority))
  }

  /** The value a nullable string column has after an update whose body holds `f`. */
  function Updated(f: Field<string>, current: Option<string>): Option<string> {
    match f
    case Missing => current
    case Null => None
    case Given(s) => Some(s)
  }

  /** PUT /tasks/<id>: the id is looked up before the body is validated; a valid
      partial body overwrites exactly the keys it holds. */
  function UpdateTask(store: Store, id: int, body: Payload): (out: Outcome)
    ensures id !in store ==> out == Outcome(NotFound, store)
    ensures id in store && ValidatePartial(body).Failure? ==>
      out == Outcome(Response(400, ErrorsBody(ValidatePartial(body).error)), store)
    ensures id in store && ValidatePartial(body).Success? ==>
      && out.response.status == 200
      && out.store.Keys == store.Keys
      && (forall k :: k in store && k != id ==> out.store[k] == store[k])
      && out.response.body == TaskBody(out.store[id])
      && var before := store[id];
      && var after := out.store[id];
      && after.id == before.id
      && after.createdAt == before.createdAt
      && after.title == (if body.title.Given? then body.title.value else before.title)
      && after.description == Updated(body.description, before.description)
      && after.dueDate == Updated(body.dueDate, before.dueDate)
      && after.priority == (if body.priority.Given? then body.priority.value else before.priority)
  {
    if id !in store then Outcome(NotFound, store)
    else
      match ValidatePartial(body)
      case Failure(errors) => Outcome(Response(400, ErrorsBody(errors)), store)
      case Success(p) =>
        var t := ApplyPatch(store[id], p);
        Outcome(Response(200, TaskBody(t)), store[id := t])
  }

  /** DELETE /tasks/<id>. */
  function DeleteTask(store: Store, id: int): (out: Outcome)
    ensures id !in store ==> out == Outcome(NotFound, store)
    ensures id in store ==>
      && out.response == Response(200, DeletedBody)
      && out.store.Keys == store.Keys - {id}
      && forall k :: k in out.store ==> out.store[k] == store[k]
  {
    if id !in store then Outcome(NotFound, store)
    else Outcome(Response(200, DeletedBody), store - {id})
  }
}

=== FILE: models.dfy ===
/**
 The `tasks` table: the shape of one row and the table itself, held as a map from
 primary key to row.
 */
module Models {
  import opened Wrappers

  /** One row of the `tasks` table. `description` and `dueDate` are the nullable columns;
      `createdAt` stands for the insertion timestamp, given as a number. */
  datatype Task = Task(
    id: int,
    title: string,
    description: Option<string>,
    dueDate: Option<string>,
    priority: int,
    createdAt: nat)

  /** The table, keyed by primary key: a key occurs at most once, so ids are unique. */
  type Store = map<int, Task>

  /** Every row is filed under its own id. */
  predicate KeyedById(store: Store) {
    forall k :: k in store ==> store[k].id == k
  }

  predicate StrictlyIncreasing(s: seq<int>) {
    forall i, j :: 0 <= i < j < |s| ==> s[i] < s[j]
  }

  /** No element occurs twice. */
  predicate NoDup<T(==)>(s: seq<T>) {
    forall i, j :: 0 <= i < j < |s| ==> s[i] != s[j]
  }

  /** Some element of a non-empty set. */
  lemma Pick(keys: set<int>) returns (x: int)
    requires keys != {}
    ensures x in keys
  {
    // Stating the empty case explicitly hands the solver the witness it needs for `:|`.
    if forall k :: k !in keys {
      assert false;
    }
    x :| x in keys;
  }

  lemma {:induction false} LeastExists(keys: set<int>)
    requires keys != {}
    ensures exists m :: m in keys && forall k :: k in keys ==> m <= k
  {
    var x := Pick(keys);
    if keys != {x} {
      var rest := keys - {x};
      LeastExists(rest);
      var m :| m in rest && forall k :: k in rest ==> m <= k;
      var least := if x <= m then x else m;
      forall k | k in keys
        ensures least <= k
      {
        if k != x {
          assert k in rest;
        }
      }
    } else {
      assert forall k :: k in keys ==> x <= k;
    }
  }

  /** The smallest element of a non-empty set of ids. */
  function Least(keys: set<int>): (m: int)
    requires keys != {}
    ensures m in keys
    ensures forall k :: k in keys ==> m <= k
  {
    LeastExists(keys);
    var m :| m in keys && forall k :: k in keys ==> m <= k;
    m
  }

  /** The ids of a table in ascending order, the order a scan of the table visits them. */
  function AscendingIds(keys: set<int>): (ids: seq<int>)
    ensures |ids| == |keys|
    ensures forall i :: 0 <= i < |ids| ==> ids[i] in keys
    ensures forall k :: k in keys ==> k in ids
    ensures StrictlyIncreasing(ids)
    decreases |keys|
  {
    if keys == {} then []
    else
      var m := Least(keys);
      [m] + AscendingIds(keys - {m})
  }

  /** The rows of the table, in ascending id order. */
  function Rows(store: Store): (rows: seq<Task>)
    ensures |rows| == |store|
    ensures forall t :: t in rows <==> t in store.Values
  {
    var ids := AscendingIds(store.Keys);
    var rows := seq(|ids|, i requires 0 <= i < |ids| => store[ids[i]]);
    assert forall t :: t in store.Values ==> t in rows by {
      forall t | t in store.Values
        ensures t in rows
      {
        var k :| k in store && store[k] == t;
        assert k in ids;
        var i :| 0 <= i < |ids| && ids[i] == k;
        assert rows[i] == t;
      }
    }
    rows
  }

  /** Distinct keys hold distinct rows when every row carries its own key, so a scan
      of the table never yields the same row twice. */
  lemma RowsHaveNoDuplicates(store: Store)
    requires KeyedById(store)
    ensures NoDup(Rows(store))
  {
    var ids := AscendingIds(store.Keys);
    var rows := Rows(store);
    forall i, j | 0 <= i < j < |rows|
      ensures rows[i] != rows[j]
    {
      assert rows[i] == store[ids[i]] && rows[j] == store[ids[j]];
      assert ids[i] < ids[j];
    }
  }

  /** The id the table gives the next inserted row: one past the largest id, or 1 for an
      empty table (SQLite's choice for an integer primary key left unset on insert). */
  function NextId(store: Store): (id: int)
    ensures id !in store
    ensures forall k :: k in store ==> k < id
    ensures |store| == 0 ==> id == 1
  {
    var ids := AscendingIds(store.Keys);
    if |ids| == 0 then 1
    else
      assert forall k :: k in store ==> k <= ids[|ids| - 1] by {
        forall k | k in store
          ensures k <= ids[|ids| - 1]
        {
          var i :| 0 <= i < |ids| && ids[i] == k;
        }
      }
      ids[|ids| - 1] + 1
  }
}

=== FILE: ordering.dfy ===
/**
 The ORDER BY of the list endpoint: a sort column (priority or creation time) and a
 direction. Rows with equal keys may come out in any order, so nothing below says
 how ties are broken.
 */
module Ordering {
  import opened Models

  datatype SortKey = ByPriority | ByCreatedAt

  datatype Direction = Ascending | Descending

  function KeyValue(t: Task, key: SortKey): int {
    match key
    case ByPriority => t.priority
    case ByCreatedAt => t.createdAt
  }

  /** `a` may be listed before `b`. */
  predicate InOrder(a: Task, b: Task, key: SortKey, dir: Direction) {
    match dir
    case Ascending => KeyValue(a, key) <= KeyValue(b, key)
    case Descending => KeyValue(a, key) >= KeyValue(b, key)
  }

  /** Every earlier row may come before every later one: non-decreasing keys when
      ascending, non-increasing when descending. */
  predicate Sorted(s: seq<Task>, key: SortKey, dir: Direction) {
    forall i, j :: 0 <= i < j < |s| ==> InOrder(s[i], s[j], key, dir)
  }

  /** A row that may precede every row of a sorted sequence may head it. */
  lemma SortedCons(x: Task, s: seq<Task>, key: SortKey, dir: Direction)
    requires Sorted(s, key, dir)
    requires forall y :: y in multiset(s) ==> InOrder(x, y, key, dir)
    ensures Sorted([x] + s, key, dir)
  {
    var r := [x] + s;
    forall i, j | 0 <= i < j < |r|
      ensures InOrder(r[i], r[j], key, dir)
    {
      assert r[j] == s[j - 1];
      if i == 0 {
        assert r[j] in multiset(s);
      } else {
        assert r[i] == s[i - 1];
      }
    }
  }

  /** Puts `t` into a sorted sequence, after the rows that must precede it. */
  function Insert(t: Task, s: seq<Task>, key: SortKey, dir: Direction): (r: seq<Task>)
    requires Sorted(s, key, dir)
    ensures Sorted(r, key, dir)
    ensures multiset(r) == multiset(s) + multiset{t}
  {
    if s == [] then [t]
    else if InOrder(t, s[0], key, dir) then
      SortedCons(t, s, key, dir);
      [t] + s
    else
      var rest := Insert(t, s[1..], key, dir);
      HeadPrecedesInsert(t, s, rest, key, dir);
      SortedCons(s[0], rest, key, dir);
      assert s == [s[0]] + s[1..];
      [s[0]] + rest
  }

  /** When `t` is not inserted in front of `s`, the head of `s` may precede every
      row of the insertion into its tail. */
  lemma HeadPrecedesInsert(t: Task, s: seq<Task>, rest: seq<Task>, key: SortKey, dir: Direction)
    requires s != [] && Sorted(s, key, dir)
    requires !InOrder(t, s[0], key, dir)
    requires multiset(rest) == multiset(s[1..]) + multiset{t}
    ensures forall y :: y in multiset(rest) ==> InOrder(s[0], y, key, dir)
  {
    forall y | y in multiset(rest)
      ensures InOrder(s[0], y, key, dir)
    {
      if y != t {
        assert y in s[1..];
        var j :| 0 <= j < |s[1..]| && s[1..][j] == y;
        assert s[j + 1] == y;
      }
    }
  }

  /** Insertion sort: the rows of `s`, rearranged into the requested order. */
  function Sort(s: seq<Task>, key: SortKey, dir: Direction): (r: seq<Task>)
    ensures Sorted(r, key, dir)
    ensures multiset(r) == multiset(s)
  {
    if s == [] then []
    else
      assert s == [s[0]] + s[1..];
      Insert(s[0], Sort(s[1..], key, dir), key, dir)
  }

  /** A sequence without repeats holds each of its elements once. */
  lemma {:induction false} NoDupCounts(s: seq<Task>)
    requires NoDup(s)
    ensures forall x :: multiset(s)[x] <= 1
  {
    if s != [] {
      assert s == [s[0]] + s[1..];
      assert NoDup(s[1..]) by {
        forall i, j | 0 <= i < j < |s[1..]|
          ensures s[1..][i] != s[1..][j]
        {
          assert s[1..][i] == s[i + 1] && s[1..][j] == s[j + 1];
        }
      }
      NoDupCounts(s[1..]);
      assert s[0] !in s[1..] by {
        forall j | 0 <= j < |s[1..]|
          ensures s[1..][j] != s[0]
        {
          assert s[1..][j] == s[j + 1];
        }
      }
    }
  }

  /** Rearranging a sequence without repeats yields one without repeats. */
  lemma PermutationKeepsNoDup(a: seq<Task>, b: seq<Task>)
    requires NoDup(a)
    requires multiset(a) == multiset(b)
    ensures NoDup(b)
  {
    NoDupCounts(a);
    forall i, j | 0 <= i < j < |b|
      ensures b[i] != b[j]
    {
      var x := b[j];
      assert b == b[..j] + b[j..];
      assert multiset(b)[x] == multiset(b[..j])[x] + multiset(b[j..])[x];
      assert x in multiset(b[j..]);
      assert b[i] in multiset(b[..j]);
    }
  }
}

=== FILE: properties.dfy ===
/**
 Properties that relate the handlers to each other and to the schema: the table
 invariant they keep, what a later request sees of an earlier one, and round trips.
 */
module Properties {
  import opened Wrappers
  import opened Models
  import opened Schemas
  import opened Search
  import opened Ordering
  import opened App

  // ---- The schema -------------------------------------------------------------

  /** The fields a load rejects: its error set on failure, nothing on success. */
  function Rejected<R>(r: Result<R, set<FieldName>>): set<FieldName> {
    match r
    case Success(_) => {}
    case Failure(e) => e
  }

  /** A partial load drops only the required check: it rejects a subset of what a
      strict load rejects, and at most `title` more is rejected strictly. */
  lemma PartialRelaxesOnlyTheRequiredCheck(p: Payload)
    ensures Rejected(ValidatePartial(p)) <= Rejected(ValidateStrict(p))
    ensures Rejected(ValidateStrict(p)) - Rejected(ValidatePartial(p)) <= {Title}
    ensures Title in Rejected(ValidateStrict(p)) - Rejected(ValidatePartial(p)) <==> p.title.Missing?
  {
  }

  /** An empty body fails a strict load on `title` alone, and loads under a partial
      load as a patch that changes nothing. */
  lemma EmptyBody()
    ensures ValidateStrict(EmptyPayload) == Failure({Title})
    ensures ValidatePartial(EmptyPayload) == Success(Patch(None, None, None, None))
  {
    assert Errors(EmptyPayload, Strict) == {Title};
  }

  /** The body a client sends to resubmit a task: its loadable fields, read-only
      ones left out. */
  function Resubmission(t: Task): Payload {
    Payload(
      Missing,
      Given(t.title),
      match t.description case Some(s) => Given(s) case None => Null,
      match t.dueDate case Some(s) => Given(s) case None => Null,
      Given(t.priority),
      Missing)
  }

  /** Resubmitting a conforming task loads strictly into exactly its loadable fields. */
  lemma ResubmissionLoads(t: Task)
    requires Conforms(t)
    ensures ValidateStrict(Resubmission(t)) == Success(Draft(t.title, t.description, t.dueDate, t.priority))
  {
  }

  /** A dump loses nothing: distinct tasks dump to distinct JSON objects. */
  lemma DumpIsInjective(a: Task, b: Task)
    requires Dump(a) == Dump(b)
    ensures a == b
  {
  }

  // ---- The table invariant ----------------------------------------------------

  lemma CreatePreservesValidStore(store: Store, body: Payload, now: nat)
    requires ValidStore(store)
    ensures ValidStore(CreateTask(store, body, now).store)
  {
  }

  lemma UpdatePreservesValidStore(store: Store, id: int, body: Payload)
    requires ValidStore(store)
    ensures ValidStore(UpdateTask(store, id, body).store)
  {
  }

  lemma DeletePreservesValidStore(store: Store, id: int)
    requires ValidStore(store)
    ensures ValidStore(DeleteTask(store, id).store)
  {
  }

  // ---- Create -----------------------------------------------------------------

  /** A successful create adds exactly one row and keeps every existing one. */
  lemma CreateAddsOneRow(store: Store, body: Payload, now: nat)
    requires ValidateStrict(body).Success?
    ensures var out := CreateTask(store, body, now);
      && out.response.status == 201
      && |out.store| == |store| + 1
      && store.Keys < out.store.Keys
      && forall k :: k in store ==> out.store[k] == store[k]
  {
    var out := CreateTask(store, body, now);
    var t := out.response.body.task;
    assert out.store.Keys == store.Keys + {t.id};
  }

  /** The created task is what a following GET of its id returns. */
  lemma CreateThenGet(store: Store, body: Payload, now: nat)
    requires ValidateStrict(body).Success?
    ensures var out := CreateTask(store, body, now);
      GetTask(out.store, out.response.body.task.id).response == Response(200, out.response.body)
  {
  }

  /** The dump of a created task carries back the body's values, null or the default
      where the body left a field out. */
  lemma CreateDumpKeepsLoadedValues(store: Store, body: Payload, now: nat)
    requires ValidateStrict(body).Success?
    ensures var obj := Dump(CreateTask(store, body, now).response.body.task);
      && obj["title"] == JStr(body.title.value)
      && obj["description"] == (if body.description.Given? then JStr(body.description.value) else JNull)
      && obj["due_date"] == (if body.dueDate.Given? then JStr(body.dueDate.value) else JNull)
      && obj["priority"] == JInt(if body.priority.Given? then body.priority.value else DefaultPriority)
      && obj["created_at"] == JInt(now)
  {
  }

  // ---- Update -----------------------------------------------------------------

  /** Applying the same update twice leaves the same table and response as once. */
  lemma {:induction false} UpdateIdempotent(store: Store, id: int, body: Payload)
    ensures var once := UpdateTask(store, id, body);
      UpdateTask(once.store, id, body) == once
  {
    var once := UpdateTask(store, id, body);
    if id in store && ValidatePartial(body).Success? {
      var p := ValidatePartial(body).value;
      var t := ApplyPatch(store[id], p);
      assert ApplyPatch(t, p) == t;
      assert once.store[id := t] == once.store;
    }
  }

  /** Resubmitting a stored task unchanged is a no-op on the table. */
  lemma ResubmitIsNoOp(store: Store, id: int)
    requires ValidStore(store) && id in store
    ensures UpdateTask(store, id, Resubmission(store[id])) ==
      Outcome(Response(200, TaskBody(store[id])), store)
  {
    var out := UpdateTask(store, id, Resubmission(store[id]));
    assert out.store[id] == store[id];
    assert out.store == store;
  }

  // ---- Delete -----------------------------------------------------------------

  /** After a delete, the id is gone: GET, a second DELETE and any PUT answer 404. */
  lemma DeleteThenNotFound(store: Store, id: int, body: Payload)
    requires id in store
    ensures var after := DeleteTask(store, id).store;
      && GetTask(after, id).response == NotFound
      && DeleteTask(after, id) == Outcome(NotFound, after)
      && UpdateTask(after, id, body).response == NotFound
  {
  }

  // ---- List -------------------------------------------------------------------

  /** With no `q`, or an empty one, the list holds every stored task, each once. */
  lemma ListWithoutQueryHoldsEveryTask(store: Store, query: ListQuery)
    requires KeyedById(store)
    requires query.q.None? || query.q == Some("")
    ensures var r := ListTasks(store, query).response.body.tasks;
      && (forall t :: t in r <==> t in store.Values)
      && |r| == |store|
  {
    var rows := Rows(store);
    var r := ListTasks(store, query).response.body.tasks;
    assert Filter(rows, query.q) == rows;
    assert |r| == |multiset(r)| == |multiset(rows)| == |rows|;
  }

  /** With a non-empty `q`, the list holds exactly the stored tasks whose title, or
      non-null description, contains `q` ignoring ASCII case. */
  lemma ListWithQuery(store: Store, query: ListQuery)
    requires query.q.Some? && query.q.value != ""
    ensures forall t :: t in ListTasks(store, query).response.body.tasks <==>
      && t in store.Values
      && (|| ContainsIgnoreCase(t.title, query.q.value)
          || (t.description.Some? && ContainsIgnoreCase(t.description.value, query.q.value)))
  {
  }

  /** The list is ordered by `created_at` only when `sort` is "created_at", by
      priority otherwise; non-decreasing only when `order` is "asc", non-increasing
      otherwise. */
  lemma ListOrder(store: Store, query: ListQuery)
    ensures var r := ListTasks(store, query).response.body.tasks;
      && (query.sort == Some("created_at") && query.order == Some("asc") ==>
            forall i, j :: 0 <= i < j < |r| ==> r[i].createdAt <= r[j].createdAt)
      && (query.sort == Some("created_at") && query.order != Some("asc") ==>
            forall i, j :: 0 <= i < j < |r| ==> r[i].createdAt >= r[j].createdAt)
      && (query.sort != Some("created_at") && query.order == Some("asc") ==>
            forall i, j :: 0 <= i < j < |r| ==> r[i].priority <= r[j].priority)
      && (query.sort != Some("created_at") && query.order != Some("asc") ==>
            forall i, j :: 0 <= i < j < |r| ==> r[i].priority >= r[j].priority)
  {
    var r := ListTasks(store, query).response.body.tasks;
    var key, dir := SortKeyOf(query.sort), DirectionOf(query.order);
    forall i, j | 0 <= i < j < |r|
      ensures InOrder(r[i], r[j], key, dir)
    {
    }
  }

  /** For a `q` without `%` or `_`, the list holds exactly what the handler's
      `LIKE '%q%'` test selects. */
  lemma ListAgreesWithLike(store: Store, query: ListQuery)
    requires query.q.Some? && query.q.value != "" && NoWildcards(query.q.value)
    ensures forall t :: t in ListTasks(store, query).response.body.tasks <==>
      t in store.Values && MatchesAsWritten(t, query.q.value)
  {
    forall t | t in store.Values
      ensures Selected(t, query.q) <==> MatchesAsWritten(t, query.q.value)
    {
      MatchesAgree(t, query.q.value);
    }
  }

  /** Listing a table right after a create shows the new task, whatever the order. */
  lemma CreateThenList(store: Store, body: Payload, now: nat, sort: Option<string>, order: Option<string>)
    requires ValidateStrict(body).Success?
    ensures var out := CreateTask(store, body, now);
      out.response.body.task in ListTasks(out.store, ListQuery(None, sort, order)).response.body.tasks
  {
    var out := CreateTask(store, body, now);
    var t := out.response.body.task;
    assert out.store[t.id] == t;
    assert t in out.store.Values;
  }
}

=== FILE: schemas.dfy ===
/**
 The task schema: the field rules that turn an untrusted JSON body into values fit for
 the table (load), and the projection that turns a row back into JSON (dump).
 */
module Schemas {
  import opened Wrappers
  import opened Models

  const MinTitleLength := 1
  const MaxTitleLength := 200
  const MinPriority := 0
  const MaxPriority := 5
  /** The priority a task gets when none is supplied; the schema, the create handler
      and the column all use 0. */
  const DefaultPriority := 0

  /** One key of an incoming JSON object: absent, explicitly null, or holding a value
      of the field's type. */
  datatype Field<+T> = Missing | Null | Given(value: T)

  /** An incoming JSON object, one entry per key the schema knows. `id` and
      `created_at` are dump-only: they are here only so that a body that sends them
      can be described. */
  datatype Payload = Payload(
    id: Field<int>,
    title: Field<string>,
    description: Field<string>,
    dueDate: Field<string>,
    priority: Field<int>,
    createdAt: Field<string>)

  /** The body every key of which is absent (also what an empty or missing body reads as). */
  const EmptyPayload := Payload(Missing, Missing, Missing, Missing, Missing, Missing)

  /** The schema's fields, as named in validation errors and in dumped JSON. */
  datatype FieldName = Id | Title | Description | DueDate | Priority | CreatedAt

  function JsonKey(f: FieldName): string {
    match f
    case Id => "id"
    case Title => "title"
    case Description => "description"
    case DueDate => "due_date"
    case Priority => "priority"
    case CreatedAt => "created_at"
  }

  /** A strict load fills in defaults and insists on required fields; a partial load
      (used for updates) looks only at the keys that are present. */
  datatype Mode = Strict | Partial

  /** What a successful strict load yields: every loadable field, defaults applied. */
  datatype Draft = Draft(
    title: string,
    description: Option<string>,
    dueDate: Option<string>,
    priority: int)

  /** What a successful partial load yields: `Some` exactly for the keys supplied. */
  datatype Patch = Patch(
    title: Option<string>,
    description: Option<Option<string>>,
    dueDate: Option<Option<string>>,
    priority: Option<int>)

  /** `title`: required, not nullable, length 1..200. In partial mode only the
      required check is dropped. */
  predicate TitleRejected(f: Field<string>, mode: Mode) {
    match f
    case Missing => mode == Strict
    case Null => true
    case Given(s) => !(MinTitleLength <= |s| <= MaxTitleLength)
  }

  /** `priority`: optional, not nullable (its load default is 0, not null), range 0..5. */
  predicate PriorityRejected(f: Field<int>) {
    match f
    case Missing => false
    case Null => true
    case Given(n) => !(MinPriority <= n <= MaxPriority)
  }

  /** A dump-only field is not a load field, so any value sent for it is an unknown key. */
  predicate DumpOnlyRejected<T>(f: Field<T>) {
    !f.Missing?
  }

  /** The names of the fields that fail to load. `description` and `due_date` accept
      any string and null, so they never fail. */
  function Errors(p: Payload, mode: Mode): set<FieldName> {
    (if DumpOnlyRejected(p.id) then {Id} else {})
    + (if TitleRejected(p.title, mode) then {Title} else {})
    + (if PriorityRejected(p.priority) then {Priority} else {})
    + (if DumpOnlyRejected(p.createdAt) then {CreatedAt} else {})
  }

  /** A nullable string field under a strict load: absent and null both load as null. */
  function LoadNullable(f: Field<string>): Option<string> {
    match f
    case Given(s) => Some(s)
    case _ => None
  }

  /** A nullable string field under a partial load: absent stays absent, null loads as null. */
  function PatchNullable(f: Field<string>): Option<Option<string>> {
    match f
    case Missing => None
    case Null => Some(None)
    case Given(s) => Some(Some(s))
  }

  /** Strict load, as used by the create handler. */
  function ValidateStrict(p: Payload): (r: Result<Draft, set<FieldName>>)
    ensures r.Success? <==>
      && p.id.Missing? && p.createdAt.Missing?
      && p.title.Given? && MinTitleLength <= |p.title.value| <= MaxTitleLength
      && !p.priority.Null?
      && (p.priority.Given? ==> MinPriority <= p.priority.value <= MaxPriority)
    ensures r.Success? ==>
      && r.value.title == p.title.value
      && (r.value.description.Some? <==> p.description.Given?)
      && (p.description.Given? ==> r.value.description.value == p.description.value)
      && (r.value.dueDate.Some? <==> p.dueDate.Given?)
      && (p.dueDate.Given? ==> r.value.dueDate.value == p.dueDate.value)
      && r.value.priority == (if p.priority.Given? then p.priority.value else DefaultPriority)
    ensures r.Failure? ==>
      && r.error != {}
      && (Title in r.error <==>
            !(p.title.Given? && MinTitleLength <= |p.title.value| <= MaxTitleLength))
      && (Priority in r.error <==>
            p.priority.Null? || (p.priority.Given? && !(MinPriority <= p.priority.value <= MaxPriority)))
      && (Id in r.error <==> !p.id.Missing?)
      && (CreatedAt in r.error <==> !p.createdAt.Missing?)
      && Description !in r.error && DueDate !in r.error
  {
    var errors := Errors(p, Strict);
    if errors != {} then Failure(errors)
    else
      Success(Draft(
        p.title.value,
        LoadNullable(p.description),
        LoadNullable(p.dueDate),
        if p.priority.Given? then p.priority.value else DefaultPriority))
  }

  /** Partial load, as used by the update handler: no required check and no defaults,
      but every key that is present is validated. */
  function ValidatePartial(p: Payload): (r: Result<Patch, set<FieldName>>)
    ensures r.Success? <==>
      && p.id.Missing? && p.createdAt.Missing?
      && !p.title.Null?
      && (p.title.Given? ==> MinTitleLength <= |p.title.value| <= MaxTitleLength)
      && !p.priority.Null?
      && (p.priority.Given? ==> MinPriority <= p.priority.value <= MaxPriority)
    ensures r.Success? ==>
      && (r.value.title.Some? <==> p.title.Given?)
      && (p.title.Given? ==> r.value.title.value == p.title.value)
      && (r.value.description.Some? <==> !p.description.Missing?)
      && (p.description.Null? ==> r.value.description == Some(None))
      && (p.description.Given? ==> r.value.description == Some(Some(p.description.value)))
      && (r.value.dueDate.Some? <==> !p.dueDate.Missing?)
      && (p.dueDate.Null? ==> r.value.dueDate == Some(None))
      && (p.dueDate.Given? ==> r.value.dueDate == Some(Some(p.dueDate.value)))
      && (r.value.priority.Some? <==> p.priority.Given?)
      && (p.priority.Given? ==> r.value.priority.value == p.priority.value)
    ensures r.Failure? ==>
      && r.error != {}
      && (Title in r.error <==>
            p.title.Null? || (p.title.Given? && !(MinTitleLength <= |p.title.value| <= MaxTitleLength)))
      && (Priority in r.error <==>
            p.priority.Null? || (p.priority.Given? && !(MinPriority <= p.priority.value <= MaxPriority)))
      && (Id in r.error <==> !p.id.Missing?)
      && (CreatedAt in r.error <==> !p.createdAt.Missing?)
      && Description !in r.error && DueDate !in r.error
  {
    var errors := Errors(p, Partial);
    if errors != {} then Failure(errors)
    else
      Success(Patch(
        if p.title.Given? then Some(p.title.value) else None,
        PatchNullable(p.description),
        PatchNullable(p.dueDate),
        if p.priority.Given? then Some(p.priority.value) else None))
  }

  /** A stored task satisfies every load rule of the schema. */
  predicate Conforms(t: Task) {
    && MinTitleLength <= |t.title| <= MaxTitleLength
    && MinPriority <= t.priority <= MaxPriority
  }

  /** The JSON values a dumped task is made of. The timestamp is dumped as its number. */
  datatype Json = JNull | JInt(n: int) | JStr(s: string)

  function NullableJson(o: Option<string>): Json {
    match o
    case Some(s) => JStr(s)
    case None => JNull
  }

  /** The dump of a task: exactly the six schema fields, dump-only ones included. */
  function Dump(t: Task): (obj: map<string, Json>)
    ensures obj.Keys == {"id", "title", "description", "due_date", "priority", "created_at"}
    ensures obj["id"] == JInt(t.id) && obj["created_at"] == JInt(t.createdAt)
  {
    map[
      JsonKey(Id) := JInt(t.id),
      JsonKey(Title) := JStr(t.title),
      JsonKey(Description) := NullableJson(t.description),
      JsonKey(DueDate) := NullableJson(t.dueDate),
      JsonKey(Priority) := JInt(t.priority),
      JsonKey(CreatedAt) := JInt(t.createdAt)]
  }
}

=== FILE: search.dfy ===
/**
 The `q` filter of the list endpoint. The handler asks the database whether
 `title` or `description` is LIKE `%q%`; SQLite's LIKE folds ASCII letters only.
 `Like` models that test as written; `ContainsIgnoreCase` is the literal,
 case-insensitive substring test the parameter is meant to perform. The two agree
 whenever `q` holds neither `%` nor `_`.
 */
module Search {
  import opened Models

  /** ASCII lower-casing; every other character is left alone. */
  function Lower(c: char): char {
    if 'A' <= c <= 'Z' then (c as int + 32) as char else c
  }

  /** `needle` occurs in `text` at offset `i`, ignoring ASCII case. */
  predicate OccursAt(text: string, needle: string, i: int) {
    && 0 <= i
    && i + |needle| <= |text|
    && forall j :: 0 <= j < |needle| ==> Lower(text[i + j]) == Lower(needle[j])
  }

  /** `needle` occurs somewhere in `text`, ignoring ASCII case. */
  predicate ContainsIgnoreCase(text: string, needle: string) {
    exists i :: 0 <= i <= |text| - |needle| && OccursAt(text, needle, i)
  }

  predicate IsWildcard(c: char) {
    c == '%' || c == '_'
  }

  predicate NoWildcards(q: string) {
    forall j :: 0 <= j < |q| ==> !IsWildcard(q[j])
  }

  predicate NoPercent(pattern: string) {
    forall j :: 0 <= j < |pattern| ==> pattern[j] != '%'
  }

  /** SQLite's LIKE with no ESCAPE clause: `%` matches any run of characters, `_` any
      one character, and other characters match themselves with ASCII case folded. */
  predicate Like(pattern: string, text: string)
    ensures Like(pattern, text) && NoPercent(pattern) ==> |text| == |pattern|
    decreases |pattern| + |text|
  {
    if pattern == [] then text == []
    else if pattern[0] == '%' then
      Like(pattern[1..], text) || (text != [] && Like(pattern, text[1..]))
    else
      && text != []
      && (pattern[0] == '_' || Lower(pattern[0]) == Lower(text[0]))
      && Like(pattern[1..], text[1..])
  }

  /** The pattern the list handler builds from `q`. */
  function SearchPattern(q: string): string {
    ['%'] + q + ['%']
  }

  /** A leading `%` lets the rest of the pattern match any suffix of the text. */
  lemma {:induction false} LeadingPercent(p: string, text: string)
    ensures Like(['%'] + p, text) <==> exists i :: 0 <= i <= |text| && Like(p, text[i..])
    decreases |text|
  {
    var pat := ['%'] + p;
    assert pat[1..] == p;
    assert text[0..] == text;
    if text != [] {
      LeadingPercent(p, text[1..]);
      if Like(pat, text[1..]) {
        var i :| 0 <= i <= |text[1..]| && Like(p, text[1..][i..]);
        assert text[1..][i..] == text[i + 1..];
      }
      if exists i :: 0 <= i <= |text| && Like(p, text[i..]) {
        var i :| 0 <= i <= |text| && Like(p, text[i..]);
        if i > 0 {
          assert text[1..][i - 1..] == text[i..];
        }
      }
    }
  }

  /** A trailing `%` after wildcard-free characters: the text must start with them. */
  lemma {:induction false} TrailingPercent(q: string, text: string)
    requires NoWildcards(q)
    ensures Like(q + ['%'], text) <==> OccursAt(text, q, 0)
  {
    var pat := q + ['%'];
    if q == [] {
      assert pat == ['%'] + [];
      LeadingPercent([], text);
      assert Like([], text[|text|..]);
    } else {
      assert pat[0] == q[0] && pat[1..] == q[1..] + ['%'];
      assert NoWildcards(q[1..]) by {
        forall j | 0 <= j < |q[1..]|
          ensures !IsWildcard(q[1..][j])
        {
          assert q[1..][j] == q[j + 1];
        }
      }
      assert !IsWildcard(q[0]);
      if text != [] {
        TrailingPercent(q[1..], text[1..]);
        if OccursAt(text[1..], q[1..], 0) && Lower(q[0]) == Lower(text[0]) {
          forall j | 0 <= j < |q|
            ensures Lower(text[j]) == Lower(q[j])
          {
            if j > 0 {
              assert text[1..][j - 1] == text[j] && q[1..][j - 1] == q[j];
            }
          }
        }
        if OccursAt(text, q, 0) {
          assert Lower(text[0]) == Lower(q[0]);
          forall j | 0 <= j < |q[1..]|
            ensures Lower(text[1..][j]) == Lower(q[1..][j])
          {
            assert Lower(text[j + 1]) == Lower(q[j + 1]);
          }
        }
      }
    }
  }

  /** For a wildcard-free `q`, the handler's LIKE test is exactly a case-insensitive
      substring test. */
  lemma LikeMatchesSubstring(q: string, text: string)
    requires NoWildcards(q)
    ensures Like(SearchPattern(q), text) <==> ContainsIgnoreCase(text, q)
  {
    assert SearchPattern(q) == ['%'] + (q + ['%']);
    LeadingPercent(q + ['%'], text);
    if Like(SearchPattern(q), text) {
      var i :| 0 <= i <= |text| && Like(q + ['%'], text[i..]);
      TrailingPercent(q, text[i..]);
      assert OccursAt(text, q, i) by {
        forall j | 0 <= j < |q|
          ensures Lower(text[i + j]) == Lower(q[j])
        {
          assert text[i..][j] == text[i + j];
        }
      }
    }
    if ContainsIgnoreCase(text, q) {
      var i :| 0 <= i <= |text| - |q| && OccursAt(text, q, i);
      TrailingPercent(q, text[i..]);
      assert OccursAt(text[i..], q, 0) by {
        forall j | 0 <= j < |q|
          ensures Lower(text[i..][j]) == Lower(q[j])
        {
          assert text[i..][j] == text[i + j];
        }
      }
    }
  }

  /** The unescaped pattern lets `_` stand for any character: searching for "a_c"
      matches the title "abc", which does not contain "a_c". */
  lemma UnderscoreIsAWildcard()
    ensures Like(SearchPattern("a_c"), "abc")
    ensures !ContainsIgnoreCase("abc", "a_c")
  {
    var p := SearchPattern("a_c");
    assert p == "%a_c%";
    assert p[1..] == "a_c%";
    assert Like("%", "");
    assert Like("c%", "c");
    assert Like("_c%", "bc");
    assert Like("a_c%", "abc");
    assert !OccursAt("abc", "a_c", 0) by {
      assert Lower("abc"[1]) != Lower("a_c"[1]);
    }
  }

  /** A lone `%` matches every text. */
  lemma {:induction false} PercentMatchesAll(text: string)
    ensures Like("%", text)
  {
    assert "%"[1..] == [];
    if text != [] {
      PercentMatchesAll(text[1..]);
    }
  }

  /** The list handler's filter as written: `title` or a non-null `description`
      is LIKE `%q%`. */
  predicate MatchesAsWritten(t: Task, q: string) {
    || Like(SearchPattern(q), t.title)
    || (t.description.Some? && Like(SearchPattern(q), t.description.value))
  }

  /** Under the filter as written, the term "%" selects every task. */
  lemma PercentSelectsEveryTask(t: Task)
    ensures MatchesAsWritten(t, "%")
  {
    PercentMatchesAll(t.title);
    assert SearchPattern("%") == "%%%" && "%%%"[1..] == "%%" && "%%"[1..] == "%";
    assert Like("%%", t.title);
  }

  /** The filter as intended: `title` or a non-null `description` contains `q`,
      ignoring ASCII case. */
  predicate Matches(t: Task, q: string) {
    || ContainsIgnoreCase(t.title, q)
    || (t.description.Some? && ContainsIgnoreCase(t.description.value, q))
  }

  /** The two filters agree on every task when `q` has no wildcard characters. */
  lemma MatchesAgree(t: Task, q: string)
    requires NoWildcards(q)
    ensures MatchesAsWritten(t, q) <==> Matches(t, q)
  {
    LikeMatchesSubstring(q, t.title);
    if t.description.Some? {
      LikeMatchesSubstring(q, t.description.value);
    }
  }
}

=== FILE: wrappers.dfy ===
/** Option and Result, the two failure-carrying datatypes the rest of the model uses. */
module Wrappers {

  /** A value that may be absent; stands for a nullable column or an optional key. */
  datatype Option<+T> = None | Some(value: T) {

    /** The wrapped value, or `default` when there is none. */
    function GetOr(default: T): T {
      match this
      case Some(v) => v
      case None => default
    }
  }

  /** Either a loaded value or the error that stopped loading. */
  datatype Result<+R, +E> = Success(value: R) | Failure(error: E)
}
